=== FILE: README.md ===
# HTTP Shortcuts: execution rules, category menu, MIME test and post parameters

A Dafny model of four small pieces of logic of the HTTP Shortcuts Android app, which lets users
define HTTP requests ("shortcuts") and run them from the home screen.

- `Execution` models `ExecuteActivity`: for one execution attempt (numbered by `tryNumber`, 0 for
  the first) it decides whether to ask for confirmation, whether to defer the run into a pending
  execution, whether to run the prepare script, whether to finish the activity early, what a
  successful or failed request leads to (rescheduling while the network is missing, the "delayed"
  toast, which output is shown), and how `displayOutput` presents it for each feedback mode.
  An attempt that is not deferred is an ordered list of steps, none repeated: progress is posted,
  then the prepare script runs, then the request is sent. `executeWithActions` opens the browser
  while it builds its chain and posts progress only when the chain is subscribed. Provided the
  script executor, which is not part of this model, runs the prepare script only on subscription,
  a browser shortcut opens its URL before the progress runnable is posted and before the prepare
  script runs, so variables the prepare script sets cannot reach a browser shortcut's URL. The
  `tryNumber` and `recursionDepth` intent extras are written by the `IntentBuilder` class and read
  back by total functions. The one-shot loading layout (`layoutLoaded`) is the `ExecuteActivity` class.
- `CategoryContextMenu` models `GetContextMenuDialogUseCase`: the ordered list of context-menu items
  built from five visibility flags. It is proved equal to a reference definition (the full
  seven-item menu with the hidden items filtered out), from which order, membership and the
  actions carried by each item follow.
- `FileTypeUtil` models the MIME constants and the null-safe `isImage` prefix test.
- `Shortcuts` models `PostParameter`, a class with an immutable id and a mutable key and value.
- `Optional` holds the `Option` type used for nullable values.

Platform effects (dialogs, toasts, intents, handlers, starting activities) are represented by the
labels the functions return (`AttemptPlan`, `Outcome`, `Display`).

## Model

| member | source | states |
|---|---|---|
| `Execution.NameOf` | HTTPShortcuts/app/src/main/kotlin/ch/rmy/android/http_shortcuts/activities/ExecuteActivity.kt:87-89 | the displayed name is the safe-name resource exactly when the shortcut's name is empty, and the name itself otherwise |
| `Execution.ConfirmationOnlyOnFirstAttempt` | HTTPShortcuts/app/src/main/kotlin/ch/rmy/android/http_shortcuts/activities/ExecuteActivity.kt:126-127 | confirmation is asked for iff the shortcut requires it and the attempt is the first; a retry never asks again |
| `Execution.DeferralOnlyOnFirstAttempt` | HTTPShortcuts/app/src/main/kotlin/ch/rmy/android/http_shortcuts/activities/ExecuteActivity.kt:160-178 | an attempt is deferred iff the delay is positive and it is the first attempt; the pending execution keeps the shortcut id, attempt 0, the delay and the wait-for-network flag; other attempts execute directly |
| `Execution.PrepareScriptGuard` | HTTPShortcuts/app/src/main/kotlin/ch/rmy/android/http_shortcuts/activities/ExecuteActivity.kt:188-194 | an executed attempt runs the prepare script iff it is attempt 0, or attempt 1 of a shortcut with a positive delay |
| `Execution.PrepareScriptOnFirstExecutedAttempt` | HTTPShortcuts/app/src/main/kotlin/ch/rmy/android/http_shortcuts/activities/ExecuteActivity.kt:164-194 | across attempts, the prepare script runs on exactly one executed attempt: attempt 1 for a positive delay, attempt 0 otherwise |
| `Execution.FinishImmediatelyIsStronger` | HTTPShortcuts/app/src/main/kotlin/ch/rmy/android/http_shortcuts/activities/ExecuteActivity.kt:129-140 | finishing early is the first step, and implies finishing after execution, that all three scripts are empty and that the network is not restricted |
| `Execution.FinishRules` | HTTPShortcuts/app/src/main/kotlin/ch/rmy/android/http_shortcuts/activities/ExecuteActivity.kt:129-176 | the activity finishes once done iff feedback uses no UI or the attempt is deferred; an executed attempt finishes first iff, in addition, all three scripts are empty and the network is not restricted |
| `Execution.ExecutedStepsOrder` | HTTPShortcuts/app/src/main/kotlin/ch/rmy/android/http_shortcuts/activities/ExecuteActivity.kt:181-234 | no step of an executed attempt repeats and progress is posted once, with the feedback mode's schedule; a browser shortcut opens the browser before posting progress and before the prepare script; progress is posted before the prepare script runs; any other shortcut posts progress and runs the prepare script before sending the request (each "before" covering every occurrence) |
| `Execution.ResumedDeferredAttempt` | HTTPShortcuts/app/src/main/kotlin/ch/rmy/android/http_shortcuts/activities/ExecuteActivity.kt:126-194 | the pending execution of a deferred first attempt, resumed as the next attempt, neither asks nor defers again and runs the prepare script |
| `Execution.RequiresConfirmation` | HTTPShortcuts/app/src/main/kotlin/ch/rmy/android/http_shortcuts/activities/ExecuteActivity.kt:126-127 | the confirmation rule; its contract is carried by `ConfirmationOnlyOnFirstAttempt` |
| `Execution.ShouldDelayExecution` | HTTPShortcuts/app/src/main/kotlin/ch/rmy/android/http_shortcuts/activities/ExecuteActivity.kt:132-133 | the deferral rule; its contract is carried by `DeferralOnlyOnFirstAttempt` |
| `Execution.ShouldFinishAfterExecution` | HTTPShortcuts/app/src/main/kotlin/ch/rmy/android/http_shortcuts/activities/ExecuteActivity.kt:129-130 | the activity finishes once done iff feedback uses no UI or the attempt is deferred; carried by `FinishRules` |
| `Execution.ShouldFinishImmediately` | HTTPShortcuts/app/src/main/kotlin/ch/rmy/android/http_shortcuts/activities/ExecuteActivity.kt:135-140 | an executed attempt finishes before anything else iff this holds; carried by `FinishRules` and `FinishImmediatelyIsStronger` |
| `Execution.RunsPrepareScript` | HTTPShortcuts/app/src/main/kotlin/ch/rmy/android/http_shortcuts/activities/ExecuteActivity.kt:188 | the prepare guard; carried by `PrepareScriptGuard` and `PrepareScriptOnFirstExecutedAttempt` |
| `Execution.ExecuteWithActions` | HTTPShortcuts/app/src/main/kotlin/ch/rmy/android/http_shortcuts/activities/ExecuteActivity.kt:181-234 | never finishes, always posts progress, runs the prepare script iff the guard holds, opens the browser iff it is a browser shortcut and sends the request otherwise, repeats no step, posts progress only with the feedback mode's schedule, and has exactly two steps plus one for the prepare script |
| `Execution.PlanAttempt` | HTTPShortcuts/app/src/main/kotlin/ch/rmy/android/http_shortcuts/activities/ExecuteActivity.kt:105-194 | the plan of one attempt; its properties are stated by the lemmas `ConfirmationOnlyOnFirstAttempt` to `ResumedDeferredAttempt` |
| `Execution.ShowProgress` | HTTPShortcuts/app/src/main/kotlin/ch/rmy/android/http_shortcuts/activities/ExecuteActivity.kt:304-314 | the loading runnable is posted at once iff feedback is in a dialog or window, otherwise re-posted after the 1000 ms threshold |
| `Execution.Reschedule` | HTTPShortcuts/app/src/main/kotlin/ch/rmy/android/http_shortcuts/activities/ExecuteActivity.kt:279-295 | a pending execution (same id and attempt number, retry backoff, wait-for-network flag) is created iff the attempt number is below MAX_RETRY = 5 |
| `Execution.OnSuccess` | HTTPShortcuts/app/src/main/kotlin/ch/rmy/android/http_shortcuts/activities/ExecuteActivity.kt:257-265 | `doOnSuccess`; its contract is carried by `SuccessOutcome` |
| `Execution.WaitsForNetwork` | HTTPShortcuts/app/src/main/kotlin/ch/rmy/android/http_shortcuts/activities/ExecuteActivity.kt:267 | waiting for the network needs the wait-for-network flag and an error other than an HTTP error response, and an unknown host always waits when the flag is set |
| `Execution.OnError` | HTTPShortcuts/app/src/main/kotlin/ch/rmy/android/http_shortcuts/activities/ExecuteActivity.kt:266-277 | `doOnError`; its contract is carried by `ErrorOutcome` |
| `Execution.SuccessOutcome` | HTTPShortcuts/app/src/main/kotlin/ch/rmy/android/http_shortcuts/activities/ExecuteActivity.kt:257-265 | on success nothing is rescheduled; errors-only feedback shows nothing and finishes; otherwise the simple toast shows the fixed "executed" message and every other mode the response body, with the response's type and url |
| `Execution.ErrorOutcome` | HTTPShortcuts/app/src/main/kotlin/ch/rmy/android/http_shortcuts/activities/ExecuteActivity.kt:266-277 | a failure waits for the network iff the shortcut waits for it, the error is not an HTTP error response, and the host is unknown or the network disconnected; then it reschedules and finishes, with the delayed toast iff feedback is not none and it is attempt 0; otherwise it reports the error under the shortcut name, with no content type or url, omitting the body iff feedback is one of the two simple toasts |
| `Execution.OutcomeFinishesOrDisplays` | HTTPShortcuts/app/src/main/kotlin/ch/rmy/android/http_shortcuts/activities/ExecuteActivity.kt:257-277 | every answer to the request finishes the activity or asks for a display; after an error, never both |
| `Execution.ErrorResponseIsReported` | HTTPShortcuts/app/src/main/kotlin/ch/rmy/android/http_shortcuts/activities/ExecuteActivity.kt:267-275 | an HTTP error response is never rescheduled and is always displayed |
| `Execution.RetriesStop` | HTTPShortcuts/app/src/main/kotlin/ch/rmy/android/http_shortcuts/activities/ExecuteActivity.kt:266-295 | over attempts 0 .. n-1 failing the same way, exactly min(n, 5) are rescheduled when the failure waits for the network, and none otherwise |
| `Execution.IfBlank` | HTTPShortcuts/app/src/main/kotlin/ch/rmy/android/http_shortcuts/activities/ExecuteActivity.kt:319 | a blank text becomes the blank-response message, any other text is kept and is not blank |
| `Execution.DisplayOutput` | HTTPShortcuts/app/src/main/kotlin/ch/rmy/android/http_shortcuts/activities/ExecuteActivity.kt:316-348 | `displayOutput`; its contract is carried by `DisplayedMessageNeverBlank` |
| `Execution.FinishesOnDisplay` | HTTPShortcuts/app/src/main/kotlin/ch/rmy/android/http_shortcuts/activities/ExecuteActivity.kt:337-346 | starting the response activity finishes the activity; used by `DisplayedMessageNeverBlank` |
| `Execution.FinishesOnDismiss` | HTTPShortcuts/app/src/main/kotlin/ch/rmy/android/http_shortcuts/activities/ExecuteActivity.kt:329-336 | dismissing the result dialog finishes the activity; used by `DisplayedMessageNeverBlank` |
| `Execution.DisplayedMessageNeverBlank` | HTTPShortcuts/app/src/main/kotlin/ch/rmy/android/http_shortcuts/activities/ExecuteActivity.kt:316-348 | toasts and the dialog never show blank text; simple toasts show the output, long toasts the output truncated to 400, the dialog the output titled with the shortcut name and finishing on dismiss, the activity the raw output with type and url and then finishing; feedback none shows nothing, and only the dialog and activity modes finish |
| `Execution.GetInt` | HTTPShortcuts/app/src/main/kotlin/ch/rmy/android/http_shortcuts/activities/ExecuteActivity.kt:82 | `Bundle.getInt`: the stored int, and 0 for a missing key or a value of another type |
| `Execution.PutTryNumber` | HTTPShortcuts/app/src/main/kotlin/ch/rmy/android/http_shortcuts/activities/ExecuteActivity.kt:366-370 | a non-positive attempt number leaves the extras unchanged; a positive one is stored under the try-number key and every other key is kept |
| `Execution.ReadTryNumber` | HTTPShortcuts/app/src/main/kotlin/ch/rmy/android/http_shortcuts/activities/ExecuteActivity.kt:81-83 | an intent without extras is attempt 0 |
| `Execution.ReadRecursionDepth` | HTTPShortcuts/app/src/main/kotlin/ch/rmy/android/http_shortcuts/activities/ExecuteActivity.kt:84-86 | an intent without extras has recursion depth 0 |
| `Execution.TryNumberRoundTrip` | HTTPShortcuts/app/src/main/kotlin/ch/rmy/android/http_shortcuts/activities/ExecuteActivity.kt:366-370 | writing t into extras that hold no attempt number and reading it back yields t if t > 0 and 0 otherwise |
| `Execution.TryNumberOfBuiltIntent` | HTTPShortcuts/app/src/main/kotlin/ch/rmy/android/http_shortcuts/activities/ExecuteActivity.kt:354-370 | the same round trip starting from the extras the builder's constructor writes |
| `Execution.OnCreate` | HTTPShortcuts/app/src/main/kotlin/ch/rmy/android/http_shortcuts/activities/ExecuteActivity.kt:91-124 | a missing shortcut ends the launch with the not-found toast; otherwise the attempt number is the one read from the intent and the plan is that attempt's |
| `Execution.RetryIntentSkipsConfirmation` | HTTPShortcuts/app/src/main/kotlin/ch/rmy/android/http_shortcuts/activities/ExecuteActivity.kt:81-133 | a launch from a builder intent with a positive attempt number neither asks for confirmation nor defers; a launch without extras is attempt 0 and asks iff the shortcut requires it |
| `Execution.IntentBuilder.constructor` | HTTPShortcuts/app/src/main/kotlin/ch/rmy/android/http_shortcuts/activities/ExecuteActivity.kt:354-364 | the intent has the execute action and only the shortcut id extra, so it reads as attempt 0 and depth 0 |
| `Execution.IntentBuilder.TryNumber` | HTTPShortcuts/app/src/main/kotlin/ch/rmy/android/http_shortcuts/activities/ExecuteActivity.kt:366-370 | writes the attempt extra only when positive; the recursion depth is untouched and a fresh intent reads back t or 0 |
| `Execution.IntentBuilder.VariableValues` | HTTPShortcuts/app/src/main/kotlin/ch/rmy/android/http_shortcuts/activities/ExecuteActivity.kt:372-374 | stores the variable values and leaves the attempt number and depth as they read before |
| `Execution.IntentBuilder.RecursionDepth` | HTTPShortcuts/app/src/main/kotlin/ch/rmy/android/http_shortcuts/activities/ExecuteActivity.kt:376-378 | always writes the depth, which then reads back exactly; the attempt number is untouched |
| `Execution.ExecuteActivity.constructor` | HTTPShortcuts/app/src/main/kotlin/ch/rmy/android/http_shortcuts/activities/ExecuteActivity.kt:58 | the layout starts not loaded, and has been set no times |
| `Execution.ExecuteActivity.ShowProgressRunnable` | HTTPShortcuts/app/src/main/kotlin/ch/rmy/android/http_shortcuts/activities/ExecuteActivity.kt:58-64 | after any number of runs the layout is loaded and the loading layout has been set exactly once; a run after the first changes nothing |
| `CategoryContextMenu.ContextMenuDialog` | HTTPShortcuts/app/src/main/kotlin/ch/rmy/android/http_shortcuts/activities/categories/usecases/GetContextMenuDialogUseCase.kt:14-58 | the dialog keeps the title and holds 1 + [show] + [hide] + 2·[layout] + [place] + [delete] items |
| `CategoryContextMenu.RunIf` | HTTPShortcuts/app/src/main/kotlin/ch/rmy/android/http_shortcuts/activities/categories/usecases/GetContextMenuDialogUseCase.kt:29-56 | `runIf` grows the list by the block's length exactly when the condition holds; `RunIfIsFilter` shows it appends the block filtered by the flags |
| `CategoryContextMenu.MenuIsVisibleItems` | HTTPShortcuts/app/src/main/kotlin/ch/rmy/android/http_shortcuts/activities/categories/usecases/GetContextMenuDialogUseCase.kt:24-57 | the builder chain equals the full seven-item menu with every item whose flag is off removed |
| `CategoryContextMenu.RenameFirst` | HTTPShortcuts/app/src/main/kotlin/ch/rmy/android/http_shortcuts/activities/categories/usecases/GetContextMenuDialogUseCase.kt:25-28 | the rename item is always present and always first |
| `CategoryContextMenu.MenuItems` | HTTPShortcuts/app/src/main/kotlin/ch/rmy/android/http_shortcuts/activities/categories/usecases/GetContextMenuDialogUseCase.kt:26-56 | an item is in the menu iff it is one of the seven possible items and its flag is set |
| `CategoryContextMenu.MenuMembership` | HTTPShortcuts/app/src/main/kotlin/ch/rmy/android/http_shortcuts/activities/categories/usecases/GetContextMenuDialogUseCase.kt:29-56 | each label appears iff its flag is set (rename always; layout type and background both under the layout flag) |
| `CategoryContextMenu.MenuOrder` | HTTPShortcuts/app/src/main/kotlin/ch/rmy/android/http_shortcuts/activities/categories/usecases/GetContextMenuDialogUseCase.kt:26-56 | items are in the order rename, show, hide, layout type, background, place, delete, with no label twice |
| `CategoryContextMenu.LayoutItemsAdjacent` | HTTPShortcuts/app/src/main/kotlin/ch/rmy/android/http_shortcuts/activities/categories/usecases/GetContextMenuDialogUseCase.kt:39-46 | with the layout flag on, the layout-type item sits right after rename, show and hide, immediately followed by the background item |
| `CategoryContextMenu.ItemActions` | HTTPShortcuts/app/src/main/kotlin/ch/rmy/android/http_shortcuts/activities/categories/usecases/GetContextMenuDialogUseCase.kt:27-54 | every item acts on the given category; the show item sets hidden to false and the hide item sets it to true |
| `FileTypeUtil.StartsWith` | HTTPShortcuts/app/src/main/kotlin/ch/rmy/android/http_shortcuts/utils/FileTypeUtil.kt:10 | case-sensitive `startsWith`; its contract is carried by `StartsWithIsPrefix` |
| `FileTypeUtil.StartsWithIsPrefix` | HTTPShortcuts/app/src/main/kotlin/ch/rmy/android/http_shortcuts/utils/FileTypeUtil.kt:10 | the character-by-character startsWith holds iff the prefix is a prefix of the string |
| `FileTypeUtil.IsImage` | HTTPShortcuts/app/src/main/kotlin/ch/rmy/android/http_shortcuts/utils/FileTypeUtil.kt:10 | a type is an image iff it is not null and "image/" is a prefix of it |
| `FileTypeUtil.ImageWithAnySubtype` | HTTPShortcuts/app/src/main/kotlin/ch/rmy/android/http_shortcuts/utils/FileTypeUtil.kt:10 | "image/" followed by any subtype, the empty one included, is an image |
| `FileTypeUtil.NonImageTypes` | HTTPShortcuts/app/src/main/kotlin/ch/rmy/android/http_shortcuts/utils/FileTypeUtil.kt:4-10 | null, "image", "Image/png" and the five text MIME constants are not images |
| `Shortcuts.PostParameter.constructor` | HTTPShortcuts/app/src/main/java/ch/rmy/android/http_shortcuts/shortcuts/PostParameter.java:11-31 | the getters return exactly the id, key and value given; the id is a constant no method can change |
| `Shortcuts.PostParameter.GetID` | HTTPShortcuts/app/src/main/java/ch/rmy/android/http_shortcuts/shortcuts/PostParameter.java:17-19 | the id; its value is fixed by the constructor's contract |
| `Shortcuts.PostParameter.GetKey` | HTTPShortcuts/app/src/main/java/ch/rmy/android/http_shortcuts/shortcuts/PostParameter.java:21-23 | the key; stated by the constructor's and the setters' contracts |
| `Shortcuts.PostParameter.GetValue` | HTTPShortcuts/app/src/main/java/ch/rmy/android/http_shortcuts/shortcuts/PostParameter.java:29-31 | the value; stated by the constructor's and the setters' contracts |
| `Shortcuts.PostParameter.SetKey` | HTTPShortcuts/app/src/main/java/ch/rmy/android/http_shortcuts/shortcuts/PostParameter.java:25-27 | the key becomes the argument; the value is unchanged and only the key field may be written |
| `Shortcuts.PostParameter.SetValue` | HTTPShortcuts/app/src/main/java/ch/rmy/android/http_shortcuts/shortcuts/PostParameter.java:33-35 | the value becomes the argument; the key is unchanged and only the value field may be written |
| `Shortcuts.LastWriteWins` | HTTPShortcuts/app/src/main/java/ch/rmy/android/http_shortcuts/shortcuts/PostParameter.java:25-35 | after two writes to the key and two to the value, only the last of each is visible |

## Left out

- The reactive-stream plumbing (`Completable`, `Single`, schedulers, `onErrorResumeNext`) and its threading: the model gives the sequential decisions only.
- `Execution.ExecutedStepsOrder`: assumes the script executor runs the prepare script only when the chain is subscribed; the executor is not part of this model.
- The scripts themselves: the JavaScript engine, the success and failure scripts, and the path where a script exception ends the chain. The plan only says whether the prepare script runs.
- Variable resolution and the resolved values stored in pending executions.
- `openShortcutInBrowser`'s URL resolution, its URL validation and its error toasts: the plan only has the step that opens the browser.
- `Execution.Reschedule`: the retry delay is `2.4^tryNumber` computed in floating point, truncated to an integer, then multiplied by 1000 ms (so attempt 1 waits 2000 ms); the model keeps it as the label `AfterRetryBackoff(tryNumber)`. The shortcut delay is likewise kept as a label, not a date.
- The scheduler that runs pending executions is not part of this model; `ResumedDeferredAttempt` assumes it resumes a pending execution as the next attempt number.
- `Execution.DisplayedMessageNeverBlank`: `truncate` is an opaque function parameter, and the dialog's HTML formatting is not modelled.
- `Execution.IfBlank`: treats only the ASCII whitespace characters as blank; Kotlin also treats Unicode space separators as whitespace.
- The `isFeedbackUsingUI`, `isFeedbackErrorsOnly`, `isFeedbackInDialog` and `isFeedbackInWindow` predicates are defined in code outside this model; they are given as fields of the `Shortcut` record.
- Resource strings (the executed, delayed, blank-response and not-found messages) and the error formatter: outputs are labels.
- Intent flags and the data URI written by the `IntentBuilder` constructor; `onBackPressed`, which does nothing.
- `PostParameter`'s `KeyValuePair` interface: only the class itself is modelled.

=== FILE: CategoryContextMenu.dfy ===
/**
 * The context menu of a category in the category list: a title and an ordered list of items,
 * each a string resource label and the view-model callback it triggers.
 */
module CategoryContextMenu {

  type CategoryId = string

  /** The string resources the items are labelled with. */
  datatype Label =
    | ActionRename
    | ActionShowCategory
    | ActionHideCategory
    | ActionChangeCategoryLayoutType
    | ActionChangeCategoryBackground
    | ActionPlaceCategory
    | ActionDelete

  /** The view-model callback an item calls when it is selected. */
  datatype Selection =
    | RenameCategoryOptionSelected(categoryId: CategoryId)
    | CategoryVisibilityChanged(categoryId: CategoryId, hidden: bool)
    | LayoutTypeOptionSelected(categoryId: CategoryId)
    | BackgroundTypeOptionSelected(categoryId: CategoryId)
    | PlaceOnHomeScreenSelected(categoryId: CategoryId)
    | CategoryDeletionSelected(categoryId: CategoryId)

  datatype Item = Item(text: Label, onSelected: Selection)

  datatype DialogState = DialogState(title: string, items: seq<Item>)

  /** The five visibility flags of the use case. */
  datatype Visibility = Visibility(
    hideOptionVisible: bool,
    showOptionVisible: bool,
    changeLayoutTypeOptionVisible: bool,
    placeOnHomeScreenOptionVisible: bool,
    deleteOptionVisible: bool)

  /** 1 when the flag is set, 0 otherwise. */
  function Indicator(b: bool): nat { if b then 1 else 0 }

  /** runIf: append the block's items only when the condition holds. */
  function RunIf(items: seq<Item>, condition: bool, block: seq<Item>): (r: seq<Item>)
    ensures |r| == |items| + (if condition then |block| else 0)
  {
    if condition then items + block else items
  }

  /** The use case's builder chain: rename, then the conditional show, hide, layout+background, place and delete items. */
  function ContextMenuDialog(
    categoryId: CategoryId,
    title: string,
    hideOptionVisible: bool,
    showOptionVisible: bool,
    changeLayoutTypeOptionVisible: bool,
    placeOnHomeScreenOptionVisible: bool,
    deleteOptionVisible: bool): (d: DialogState)
    ensures d.title == title
    ensures |d.items| == 1 + Indicator(showOptionVisible) + Indicator(hideOptionVisible) + 2 * Indicator(changeLayoutTypeOptionVisible)
                           + Indicator(placeOnHomeScreenOptionVisible) + Indicator(deleteOptionVisible)
  {
    var items := [Item(ActionRename, RenameCategoryOptionSelected(categoryId))];
    var items := RunIf(items, showOptionVisible, [Item(ActionShowCategory, CategoryVisibilityChanged(categoryId, false))]);
    var items := RunIf(items, hideOptionVisible, [Item(ActionHideCategory, CategoryVisibilityChanged(categoryId, true))]);
    var items := RunIf(items, changeLayoutTypeOptionVisible,
                       [Item(ActionChangeCategoryLayoutType, LayoutTypeOptionSelected(categoryId)),
                        Item(ActionChangeCategoryBackground, BackgroundTypeOptionSelected(categoryId))]);
    var items := RunIf(items, placeOnHomeScreenOptionVisible, [Item(ActionPlaceCategory, PlaceOnHomeScreenSelected(categoryId))]);
    var items := RunIf(items, deleteOptionVisible, [Item(ActionDelete, CategoryDeletionSelected(categoryId))]);
    DialogState(title, items)
  }

  function Menu(categoryId: CategoryId, title: string, v: Visibility): DialogState
  {
    ContextMenuDialog(categoryId, title, v.hideOptionVisible, v.showOptionVisible,
                      v.changeLayoutTypeOptionVisible, v.placeOnHomeScreenOptionVisible, v.deleteOptionVisible)
  }

  // ---------------------------------------------------------------------------------------------
  // Reference definition: the full menu, with every item the flags hide removed.

  /** The position of each label in the full menu. */
  function Rank(l: Label): nat
  {
    match l
    case ActionRename => 0
    case ActionShowCategory => 1
    case ActionHideCategory => 2
    case ActionChangeCategoryLayoutType => 3
    case ActionChangeCategoryBackground => 4
    case ActionPlaceCategory => 5
    case ActionDelete => 6
  }

  /** Every item the menu can hold, in the order of the builder chain. */
  function AllItems(categoryId: CategoryId): seq<Item>
  {
    [Item(ActionRename, RenameCategoryOptionSelected(categoryId)),
     Item(ActionShowCategory, CategoryVisibilityChanged(categoryId, false)),
     Item(ActionHideCategory, CategoryVisibilityChanged(categoryId, true)),
     Item(ActionChangeCategoryLayoutType, LayoutTypeOptionSelected(categoryId)),
     Item(ActionChangeCategoryBackground, BackgroundTypeOptionSelected(categoryId)),
     Item(ActionPlaceCategory, PlaceOnHomeScreenSelected(categoryId)),
     Item(ActionDelete, CategoryDeletionSelected(categoryId))]
  }

  /** Which flag governs each label; rename has none and is always shown. */
  predicate Visible(l: Label, v: Visibility)
  {
    match l
    case ActionRename => true
    case ActionShowCategory => v.showOptionVisible
    case ActionHideCategory => v.hideOptionVisible
    case ActionChangeCategoryLayoutType => v.changeLayoutTypeOptionVisible
    case ActionChangeCategoryBackground => v.changeLayoutTypeOptionVisible
    case ActionPlaceCategory => v.placeOnHomeScreenOptionVisible
    case ActionDelete => v.deleteOptionVisible
  }

  function FilterVisible(items: seq<Item>, v: Visibility): (r: seq<Item>)
    ensures |r| <= |items|
  {
    if items == [] then []
    else (if Visible(items[0].text, v) then [items[0]] else []) + FilterVisible(items[1..], v)
  }

  function Labels(items: seq<Item>): (ls: seq<Label>)
    ensures |ls| == |items|
    ensures forall i :: 0 <= i < |items| ==> ls[i] == items[i].text
  {
    seq(|items|, i requires 0 <= i < |items| => items[i].text)
  }

  predicate RankIncreasing(items: seq<Item>)
  {
    forall i, j :: 0 <= i < j < |items| ==> Rank(items[i].text) < Rank(items[j].text)
  }

  lemma {:induction false} FilterVisibleAppend(a: seq<Item>, b: seq<Item>, v: Visibility)
    ensures FilterVisible(a + b, v) == FilterVisible(a, v) + FilterVisible(b, v)
  {
    if a != [] {
      assert a + b != [];
      assert (a + b)[0] == a[0];
      assert (a + b)[1..] == a[1..] + b;
      FilterVisibleAppend(a[1..], b, v);
    } else {
      assert a + b == b;
    }
  }

  /** A block whose items are all shown, or all hidden, by the flags filters to itself, or to nothing. */
  lemma {:induction false} FilterVisibleUniform(block: seq<Item>, condition: bool, v: Visibility)
    requires forall x :: x in block ==> Visible(x.text, v) == condition
    ensures FilterVisible(block, v) == if condition then block else []
  {
    if block != [] {
      assert block[0] in block;
      assert forall x :: x in block[1..] ==> x in block;
      FilterVisibleUniform(block[1..], condition, v);
      assert block == [block[0]] + block[1..];
    }
  }

  /** Appending a block under a flag, as runIf does, is filtering the block when the flag governs all of it. */
  lemma RunIfIsFilter(items: seq<Item>, condition: bool, block: seq<Item>, v: Visibility)
    requires forall x :: x in block ==> Visible(x.text, v) == condition
    ensures RunIf(items, condition, block) == items + FilterVisible(block, v)
  {
    FilterVisibleUniform(block, condition, v);
  }

  lemma {:induction false} FilterVisibleMembers(items: seq<Item>, v: Visibility, x: Item)
    ensures x in FilterVisible(items, v) <==> x in items && Visible(x.text, v)
  {
    if items != [] {
      FilterVisibleMembers(items[1..], v, x);
      assert x in items <==> x == items[0] || x in items[1..];
    }
  }

  lemma {:induction false} FilterVisibleKeepsOrder(items: seq<Item>, v: Visibility)
    requires RankIncreasing(items)
    ensures RankIncreasing(FilterVisible(items, v))
  {
    if items != [] {
      FilterVisibleKeepsOrder(items[1..], v);
      var rest := FilterVisible(items[1..], v);
      forall y | y in rest ensures Rank(items[0].text) < Rank(y.text) {
        FilterVisibleMembers(items[1..], v, y);
      }
    }
  }

  /** The builder chain keeps exactly the items of the full menu whose flag is set, in the full menu's order. */
  lemma {:induction false} MenuIsVisibleItems(categoryId: CategoryId, title: string, v: Visibility)
    ensures Menu(categoryId, title, v).items == FilterVisible(AllItems(categoryId), v)
  {
    var all := AllItems(categoryId);
    var renameItems, showItems, hideItems, layoutItems, placeItems, deleteItems :=
      [all[0]], [all[1]], [all[2]], [all[3], all[4]], [all[5]], [all[6]];
    assert FilterVisible(renameItems, v) == renameItems by { assert renameItems[1..] == []; }
    RunIfIsFilter(renameItems, v.showOptionVisible, showItems, v);
    var s1 := RunIf(renameItems, v.showOptionVisible, showItems);
    RunIfIsFilter(s1, v.hideOptionVisible, hideItems, v);
    var s2 := RunIf(s1, v.hideOptionVisible, hideItems);
    RunIfIsFilter(s2, v.changeLayoutTypeOptionVisible, layoutItems, v);
    var s3 := RunIf(s2, v.changeLayoutTypeOptionVisible, layoutItems);
    RunIfIsFilter(s3, v.placeOnHomeScreenOptionVisible, placeItems, v);
    var s4 := RunIf(s3, v.placeOnHomeScreenOptionVisible, placeItems);
    RunIfIsFilter(s4, v.deleteOptionVisible, deleteItems, v);
    assert all == renameItems + showItems + hideItems + layoutItems + placeItems + deleteItems;
    FilterVisibleAppend(renameItems, showItems, v);
    FilterVisibleAppend(renameItems + showItems, hideItems, v);
    FilterVisibleAppend(renameItems + showItems + hideItems, layoutItems, v);
    FilterVisibleAppend(renameItems + showItems + hideItems + layoutItems, placeItems, v);
    FilterVisibleAppend(renameItems + showItems + hideItems + layoutItems + placeItems, deleteItems, v);
  }

  /** The rename item is always present and always first. */
  lemma RenameFirst(categoryId: CategoryId, title: string, v: Visibility)
    ensures |Menu(categoryId, title, v).items| > 0
    ensures Menu(categoryId, title, v).items[0] == Item(ActionRename, RenameCategoryOptionSelected(categoryId))
  {
    MenuIsVisibleItems(categoryId, title, v);
    var all := AllItems(categoryId);
    assert FilterVisible(all, v) == [all[0]] + FilterVisible(all[1..], v);
  }

  /** Items always come in the order rename, show, hide, layout type, background, place, delete, and no label repeats. */
  lemma MenuOrder(categoryId: CategoryId, title: string, v: Visibility)
    ensures RankIncreasing(Menu(categoryId, title, v).items)
  {
    MenuIsVisibleItems(categoryId, title, v);
    AllItemsInOrder(categoryId);
    FilterVisibleKeepsOrder(AllItems(categoryId), v);
  }

  lemma AllItemsInOrder(categoryId: CategoryId)
    ensures RankIncreasing(AllItems(categoryId))
  {
    var all := AllItems(categoryId);
    assert forall i :: 0 <= i < |all| ==> Rank(all[i].text) == i;
  }

  /** The menu holds exactly the items of the full menu whose flag is set. */
  lemma MenuItems(categoryId: CategoryId, title: string, v: Visibility)
    ensures forall it :: it in Menu(categoryId, title, v).items <==> it in AllItems(categoryId) && Visible(it.text, v)
  {
    MenuIsVisibleItems(categoryId, title, v);
    forall it ensures it in Menu(categoryId, title, v).items <==> it in AllItems(categoryId) && Visible(it.text, v) {
      FilterVisibleMembers(AllItems(categoryId), v, it);
    }
  }

  /** Each conditional item is present exactly when its flag is set; rename is always present. */
  lemma MenuMembership(categoryId: CategoryId, title: string, v: Visibility)
    ensures forall l :: l in Labels(Menu(categoryId, title, v).items) <==> Visible(l, v)
  {
    MenuItems(categoryId, title, v);
    LabelsOfVisibleItems(Menu(categoryId, title, v).items, categoryId, v);
  }

  lemma LabelsOfVisibleItems(items: seq<Item>, categoryId: CategoryId, v: Visibility)
    requires forall it :: it in items <==> it in AllItems(categoryId) && Visible(it.text, v)
    ensures forall l :: l in Labels(items) <==> Visible(l, v)
  {
    var all := AllItems(categoryId);
    forall l: Label ensures l in Labels(items) <==> Visible(l, v) {
      var it := all[Rank(l)];
      assert it.text == l && it in all;
      if l in Labels(items) {
        var i :| 0 <= i < |items| && Labels(items)[i] == l;
        assert items[i] in items;
      }
    }
  }

  /** The layout-type item is immediately followed by the background item, right after rename, show and hide. */
  lemma LayoutItemsAdjacent(categoryId: CategoryId, title: string, v: Visibility)
    requires v.changeLayoutTypeOptionVisible
    ensures var items := Menu(categoryId, title, v).items;
      var k := 1 + Indicator(v.showOptionVisible) + Indicator(v.hideOptionVisible);
      && items[k] == Item(ActionChangeCategoryLayoutType, LayoutTypeOptionSelected(categoryId))
      && items[k + 1] == Item(ActionChangeCategoryBackground, BackgroundTypeOptionSelected(categoryId))
  {
  }

  /** Every item acts on the given category; the show item un-hides it and the hide item hides it. */
  lemma ItemActions(categoryId: CategoryId, title: string, v: Visibility)
    ensures forall it :: it in Menu(categoryId, title, v).items ==>
      && it.onSelected.categoryId == categoryId
      && (it.text == ActionShowCategory ==> it.onSelected == CategoryVisibilityChanged(categoryId, false))
      && (it.text == ActionHideCategory ==> it.onSelected == CategoryVisibilityChanged(categoryId, true))
  {
    MenuItems(categoryId, title, v);
  }
}

=== FILE: Execution.dfy ===
/**
 * The decisions ExecuteActivity takes during one execution attempt of a shortcut: confirmation,
 * deferral into a pending execution, the prepare script, finishing early, rescheduling after a
 * network failure, and how the result is shown. Platform calls (dialogs, toasts, intents,
 * handlers) are represented by the labels these functions return.
 */
module Execution {
  import opened Optional

  // Companion constants.
  const ACTION_EXECUTE_SHORTCUT := "ch.rmy.android.http_shortcuts.resolveVariablesAndExecute"
  const EXTRA_SHORTCUT_ID := "id"
  const EXTRA_VARIABLE_VALUES := "variable_values"
  const EXTRA_TRY_NUMBER := "try_number"
  const EXTRA_RECURSION_DEPTH := "recursion_depth"
  const MAX_RETRY := 5
  const TOAST_MAX_LENGTH := 400
  /** Milliseconds before the loading layout appears for feedback modes without a window. */
  const INVISIBLE_PROGRESS_THRESHOLD := 1000

  /** The feedback modes a shortcut can have. */
  datatype Feedback =
    | FeedbackNone
    | FeedbackToastSimple
    | FeedbackToastSimpleErrors
    | FeedbackToast
    | FeedbackToastErrors
    | FeedbackDialog
    | FeedbackActivity

  /**
   * The settings of a shortcut that the execution reads. The four isFeedback* predicates of the
   * shortcut are derived from its feedback mode in code that is not part of this model, so they
   * are carried here as given values.
   */
  datatype Shortcut = Shortcut(
    id: string,
    name: string,
    requireConfirmation: bool,
    delay: int,
    feedback: Feedback,
    isWaitForNetwork: bool,
    codeOnPrepare: string,
    codeOnSuccess: string,
    codeOnFailure: string,
    isBrowserShortcut: bool,
    isFeedbackUsingUI: bool,
    isFeedbackErrorsOnly: bool,
    isFeedbackInDialog: bool,
    isFeedbackInWindow: bool)

  /** The name shown to the user: the shortcut's own, or the "safe name" resource when it is empty. */
  datatype ShortcutName = Named(name: string) | SafeName

  function NameOf(s: Shortcut): (n: ShortcutName)
    ensures n == SafeName <==> s.name == []
    ensures n.Named? ==> n.name == s.name
  {
    if s.name == [] then SafeName else Named(s.name)
  }

  // ---------------------------------------------------------------------------------------------
  // The decision predicates of the activity.

  predicate RequiresConfirmation(s: Shortcut, tryNumber: int)
  {
    s.requireConfirmation && tryNumber == 0
  }

  predicate ShouldDelayExecution(s: Shortcut, tryNumber: int)
  {
    s.delay > 0 && tryNumber == 0
  }

  predicate ShouldFinishAfterExecution(s: Shortcut, tryNumber: int)
  {
    !s.isFeedbackUsingUI || ShouldDelayExecution(s, tryNumber)
  }

  predicate ShouldFinishImmediately(s: Shortcut, tryNumber: int, networkPerformanceRestricted: bool)
  {
    && ShouldFinishAfterExecution(s, tryNumber)
    && s.codeOnPrepare == []
    && s.codeOnSuccess == []
    && s.codeOnFailure == []
    && !networkPerformanceRestricted
  }

  /** The guard in front of the prepare script. */
  predicate RunsPrepareScript(s: Shortcut, tryNumber: int)
  {
    tryNumber == 0 || (tryNumber == 1 && s.delay > 0)
  }

  // ---------------------------------------------------------------------------------------------
  // One attempt: what happens before the request is sent.

  /** When a pending execution becomes due. The backoff delay itself is floating point and left abstract. */
  datatype WaitUntil = AfterShortcutDelay(delay: int) | AfterRetryBackoff(tryNumber: int)

  /** A pending execution stored for the scheduler. The resolved variable values are left out. */
  datatype PendingExecution = PendingExecution(
    shortcutId: string,
    tryNumber: int,
    waitUntil: WaitUntil,
    requiresNetwork: bool)

  /** How showProgress posts the runnable that loads the loading layout. */
  datatype ProgressSchedule = PostNow | RepostAfter(delayMillis: int)

  /**
   * The effects of an attempt that is not deferred, in the order they take place. executeWithActions
   * opens the browser while it builds its chain, so for a browser shortcut the browser is opened
   * before the progress runnable is posted and before the prepare script runs. This order takes the
   * script executor (not part of this model) to run a script only when its Completable is subscribed.
   */
  datatype Step =
    | FinishActivity
    | OpenInBrowser
    | PostProgress(schedule: ProgressSchedule)
    | RunPrepareScript
    | SendRequest

  datatype Start =
    | Deferred(pending: PendingExecution)
    | Executed(steps: seq<Step>)

  /**
   * The plan of one attempt. When askConfirmation holds, start happens only after the user confirms.
   * finishWhenDone says whether the activity finishes once the whole chain has completed
   * without error (after an error it always finishes).
   */
  datatype AttemptPlan = AttemptPlan(askConfirmation: bool, start: Start, finishWhenDone: bool)

  function ShowProgress(s: Shortcut): (p: ProgressSchedule)
    ensures p == PostNow <==> s.isFeedbackInDialog || s.isFeedbackInWindow
    ensures p.RepostAfter? ==> p.delayMillis == INVISIBLE_PROGRESS_THRESHOLD
  {
    if s.isFeedbackInDialog || s.isFeedbackInWindow then PostNow else RepostAfter(INVISIBLE_PROGRESS_THRESHOLD)
  }

  /** executeWithActions: the browser (evaluated while the chain is built), progress, the guarded prepare script, the request. */
  function ExecuteWithActions(s: Shortcut, tryNumber: int): (steps: seq<Step>)
    ensures FinishActivity !in steps
    ensures PostProgress(ShowProgress(s)) in steps
    ensures RunPrepareScript in steps <==> RunsPrepareScript(s, tryNumber)
    ensures OpenInBrowser in steps <==> s.isBrowserShortcut
    ensures SendRequest in steps <==> !s.isBrowserShortcut
    ensures forall st :: st in steps && st.PostProgress? ==> st == PostProgress(ShowProgress(s))
    ensures |steps| == 2 + (if RunsPrepareScript(s, tryNumber) then 1 else 0)
    ensures Distinct(steps)
  {
    (if s.isBrowserShortcut then [OpenInBrowser] else [])
    + [PostProgress(ShowProgress(s))]
    + (if RunsPrepareScript(s, tryNumber) then [RunPrepareScript] else [])
    + (if s.isBrowserShortcut then [] else [SendRequest])
  }

  /** onCreate followed by resolveVariablesAndExecute and executeWithActions, for a shortcut that was found. */
  function PlanAttempt(s: Shortcut, tryNumber: int, networkPerformanceRestricted: bool): AttemptPlan
  {
    AttemptPlan(
      RequiresConfirmation(s, tryNumber),
      if ShouldDelayExecution(s, tryNumber) then
        Deferred(PendingExecution(s.id, tryNumber, AfterShortcutDelay(s.delay), s.isWaitForNetwork))
      else
        Executed(
          (if ShouldFinishImmediately(s, tryNumber, networkPerformanceRestricted) then [FinishActivity] else [])
          + ExecuteWithActions(s, tryNumber)),
      ShouldFinishAfterExecution(s, tryNumber))
  }

  /** Whether steps a and b both occur, and every occurrence of a comes before every occurrence of b. */
  predicate Before(steps: seq<Step>, a: Step, b: Step)
  {
    && a in steps && b in steps
    && forall i, j :: 0 <= i < |steps| && 0 <= j < |steps| && steps[i] == a && steps[j] == b ==> i < j
  }

  /** No step occurs twice in a sequence of steps. */
  predicate Distinct(steps: seq<Step>)
  {
    forall i, j :: 0 <= i < j < |steps| ==> steps[i] != steps[j]
  }

  /** Confirmation is asked for exactly on the first attempt of a shortcut that requires it; a retry never asks again. */
  lemma ConfirmationOnlyOnFirstAttempt(s: Shortcut, tryNumber: int, restricted: bool)
    ensures PlanAttempt(s, tryNumber, restricted).askConfirmation <==> s.requireConfirmation && tryNumber == 0
  {
  }

  /**
   * A positive delay turns the first attempt into a pending execution due after that delay, which
   * keeps the attempt number and the network requirement; any other attempt executes directly.
   */
  lemma DeferralOnlyOnFirstAttempt(s: Shortcut, tryNumber: int, restricted: bool)
    ensures var start := PlanAttempt(s, tryNumber, restricted).start;
      && (start.Deferred? <==> s.delay > 0 && tryNumber == 0)
      && (start.Deferred? ==> start.pending == PendingExecution(s.id, 0, AfterShortcutDelay(s.delay), s.isWaitForNetwork))
  {
  }

  /** The prepare script runs on the first attempt, or on the second one of a delayed shortcut, and never otherwise. */
  lemma PrepareScriptGuard(s: Shortcut, tryNumber: int, restricted: bool)
    requires PlanAttempt(s, tryNumber, restricted).start.Executed?
    ensures RunPrepareScript in PlanAttempt(s, tryNumber, restricted).start.steps
      <==> tryNumber == 0 || (tryNumber == 1 && s.delay > 0)
  {
  }

  /**
   * Across attempts, the prepare script runs on exactly one executed attempt: the first one that is not
   * deferred, which is attempt 1 for a shortcut with a positive delay and attempt 0 otherwise.
   */
  lemma PrepareScriptOnFirstExecutedAttempt(s: Shortcut, tryNumber: int, restricted: bool)
    ensures var start := PlanAttempt(s, tryNumber, restricted).start;
      start.Executed? && RunPrepareScript in start.steps <==> tryNumber == (if s.delay > 0 then 1 else 0)
  {
  }

  /** Finishing early happens first, and implies finishing after execution and that there is no script to run at all. */
  lemma FinishImmediatelyIsStronger(s: Shortcut, tryNumber: int, restricted: bool)
    requires PlanAttempt(s, tryNumber, restricted).start.Executed?
    requires FinishActivity in PlanAttempt(s, tryNumber, restricted).start.steps
    ensures PlanAttempt(s, tryNumber, restricted).start.steps[0] == FinishActivity
    ensures PlanAttempt(s, tryNumber, restricted).finishWhenDone
    ensures s.codeOnPrepare == [] && s.codeOnSuccess == [] && s.codeOnFailure == []
    ensures !restricted
  {
  }

  /**
   * The two finish rules: the activity finishes once the chain is done iff the feedback uses no UI or
   * the attempt is deferred; an executed attempt finishes before anything else iff, in addition, all
   * three scripts are empty and the network is not restricted.
   */
  lemma FinishRules(s: Shortcut, tryNumber: int, restricted: bool)
    ensures PlanAttempt(s, tryNumber, restricted).finishWhenDone
      <==> !s.isFeedbackUsingUI || (s.delay > 0 && tryNumber == 0)
    ensures var start := PlanAttempt(s, tryNumber, restricted).start;
      start.Executed? ==>
        (FinishActivity in start.steps <==>
           && (!s.isFeedbackUsingUI || (s.delay > 0 && tryNumber == 0))
           && s.codeOnPrepare == [] && s.codeOnSuccess == [] && s.codeOnFailure == [] && !restricted)
  {
  }

  /**
   * The order of an executed attempt: a browser shortcut opens the browser before the progress runnable is
   * posted and before the prepare script; progress is posted before the prepare script runs; any other
   * shortcut posts progress and runs the prepare script before sending the request. Progress is posted
   * exactly once, with the schedule the feedback mode calls for.
   */
  lemma ExecutedStepsOrder(s: Shortcut, tryNumber: int, restricted: bool)
    requires PlanAttempt(s, tryNumber, restricted).start.Executed?
    ensures var steps := PlanAttempt(s, tryNumber, restricted).start.steps;
      && Distinct(steps)
      && (forall st :: st in steps && st.PostProgress? ==> st == PostProgress(ShowProgress(s)))
      && (s.isBrowserShortcut ==> Before(steps, OpenInBrowser, PostProgress(ShowProgress(s))))
      && (RunsPrepareScript(s, tryNumber) ==> Before(steps, PostProgress(ShowProgress(s)), RunPrepareScript))
      && (s.isBrowserShortcut && RunsPrepareScript(s, tryNumber) ==> Before(steps, OpenInBrowser, RunPrepareScript))
      && (!s.isBrowserShortcut ==> Before(steps, PostProgress(ShowProgress(s)), SendRequest))
      && (!s.isBrowserShortcut && RunsPrepareScript(s, tryNumber) ==> Before(steps, RunPrepareScript, SendRequest))
  {
    var steps := PlanAttempt(s, tryNumber, restricted).start.steps;
    var k := if ShouldFinishImmediately(s, tryNumber, restricted) then 1 else 0;
    var p := if RunsPrepareScript(s, tryNumber) then 1 else 0;
    if s.isBrowserShortcut {
      assert steps[k] == OpenInBrowser && steps[k + 1] == PostProgress(ShowProgress(s));
      if p == 1 {
        assert steps[k + 2] == RunPrepareScript;
      }
    } else {
      assert steps[k] == PostProgress(ShowProgress(s)) && steps[k + 1 + p] == SendRequest;
      if p == 1 {
        assert steps[k + 1] == RunPrepareScript;
      }
    }
  }

  /**
   * The pending execution of a deferred first attempt, once resumed as the next attempt (the scheduler
   * that does so is not part of this model), runs without asking again and without deferring again,
   * and it runs the prepare script.
   */
  lemma ResumedDeferredAttempt(s: Shortcut, restricted: bool, restricted': bool)
    requires PlanAttempt(s, 0, restricted).start.Deferred?
    ensures var next := PlanAttempt(s, PlanAttempt(s, 0, restricted).start.pending.tryNumber + 1, restricted');
      && !next.askConfirmation
      && next.start.Executed?
      && RunPrepareScript in next.start.steps
  {
  }

  // ---------------------------------------------------------------------------------------------
  // One attempt: what happens once the request has answered.

  /** What the request failed with: an HTTP error response, an unknown host, or any other exception. */
  datatype ErrorKind = ErrorResponse | UnknownHost | OtherError

  datatype Response = Response(body: string, contentType: Option<string>, url: Option<string>)

  /** The text handed to displayOutput, before it is rendered (resource strings and error formatting are not modelled). */
  datatype Output =
    | ExecutedMessage(name: ShortcutName)
    | ResponseBody(body: string)
    | ErrorReport(error: ErrorKind, name: ShortcutName, includeBody: bool)

  datatype DisplayRequest = DisplayRequest(output: Output, contentType: Option<string>, url: Option<string>)

  /**
   * The effects of the request's answer: a rescheduled pending execution, the "execution delayed"
   * toast, an output to display, and whether the activity finishes right away.
   */
  datatype Outcome = Outcome(
    reschedule: Option<PendingExecution>,
    delayedToast: bool,
    display: Option<DisplayRequest>,
    finish: bool)

  /** rescheduleExecution: a pending execution with retry backoff, only while the attempt number is below MAX_RETRY. */
  function Reschedule(s: Shortcut, tryNumber: int): (r: Option<PendingExecution>)
    ensures r.Some? <==> tryNumber < MAX_RETRY
    ensures r.Some? ==> r.value == PendingExecution(s.id, tryNumber, AfterRetryBackoff(tryNumber), s.isWaitForNetwork)
  {
    if tryNumber < MAX_RETRY then
      Some(PendingExecution(s.id, tryNumber, AfterRetryBackoff(tryNumber), s.isWaitForNetwork))
    else
      None
  }

  /** doOnSuccess of executeShortcut. */
  function OnSuccess(s: Shortcut, response: Response): Outcome
  {
    if s.isFeedbackErrorsOnly then
      Outcome(None, false, None, true)
    else
      var output := if s.feedback == FeedbackToastSimple then ExecutedMessage(NameOf(s)) else ResponseBody(response.body);
      Outcome(None, false, Some(DisplayRequest(output, response.contentType, response.url)), false)
  }

  /** The condition under which a failed request waits for the network instead of reporting the error. */
  predicate WaitsForNetwork(s: Shortcut, error: ErrorKind, networkConnected: bool)
    ensures WaitsForNetwork(s, error, networkConnected) ==> s.isWaitForNetwork && error != ErrorResponse
    ensures s.isWaitForNetwork && error == UnknownHost ==> WaitsForNetwork(s, error, networkConnected)
  {
    s.isWaitForNetwork && error != ErrorResponse && (error == UnknownHost || !networkConnected)
  }

  /** doOnError of executeShortcut. */
  function OnError(s: Shortcut, tryNumber: int, error: ErrorKind, networkConnected: bool): Outcome
  {
    if WaitsForNetwork(s, error, networkConnected) then
      Outcome(Reschedule(s, tryNumber), s.feedback != FeedbackNone && tryNumber == 0, None, true)
    else
      var simple := s.feedback == FeedbackToastSimpleErrors || s.feedback == FeedbackToastSimple;
      Outcome(None, false, Some(DisplayRequest(ErrorReport(error, NameOf(s), !simple), None, None)), false)
  }

  /**
   * On success, errors-only feedback shows nothing and finishes; otherwise nothing is rescheduled, and
   * the output is the fixed "executed" message for simple toasts and the response body for all other modes.
   */
  lemma SuccessOutcome(s: Shortcut, response: Response)
    ensures var o := OnSuccess(s, response);
      && o.reschedule == None && !o.delayedToast
      && (s.isFeedbackErrorsOnly ==> o.display == None && o.finish)
      && (!s.isFeedbackErrorsOnly ==>
            && o.display.Some? && !o.finish
            && o.display.value.contentType == response.contentType && o.display.value.url == response.url
            && (s.feedback == FeedbackToastSimple ==> o.display.value.output == ExecutedMessage(NameOf(s)))
            && (s.feedback != FeedbackToastSimple ==> o.display.value.output == ResponseBody(response.body)))
  {
  }

  /**
   * On error, either the attempt waits for the network (reschedules, finishes, and shows the delayed toast
   * only on a first attempt with feedback) or it reports the error, including the body exactly when the
   * feedback is not one of the two simple toasts.
   */
  lemma ErrorOutcome(s: Shortcut, tryNumber: int, error: ErrorKind, networkConnected: bool)
    ensures var o := OnError(s, tryNumber, error, networkConnected);
      var waits := WaitsForNetwork(s, error, networkConnected);
      && (waits ==> o.finish && o.display == None && o.reschedule == Reschedule(s, tryNumber)
                    && (o.delayedToast <==> s.feedback != FeedbackNone && tryNumber == 0))
      && (!waits ==> !o.finish && o.reschedule == None && !o.delayedToast && o.display.Some?
                     && o.display.value.output.ErrorReport?
                     && o.display.value.output.error == error
                     && o.display.value.output.name == NameOf(s)
                     && o.display.value.contentType == None && o.display.value.url == None
                     && (o.display.value.output.includeBody <==>
                           s.feedback != FeedbackToastSimple && s.feedback != FeedbackToastSimpleErrors))
  {
  }

  /** Every answer to the request either finishes the activity at once or asks for an output to be displayed. */
  lemma OutcomeFinishesOrDisplays(s: Shortcut, tryNumber: int, response: Response, error: ErrorKind, networkConnected: bool)
    ensures OnSuccess(s, response).finish || OnSuccess(s, response).display.Some?
    ensures OnError(s, tryNumber, error, networkConnected).finish || OnError(s, tryNumber, error, networkConnected).display.Some?
    ensures !(OnError(s, tryNumber, error, networkConnected).finish && OnError(s, tryNumber, error, networkConnected).display.Some?)
  {
  }

  /** An HTTP error response is never rescheduled, whatever the network state. */
  lemma ErrorResponseIsReported(s: Shortcut, tryNumber: int, networkConnected: bool)
    ensures OnError(s, tryNumber, ErrorResponse, networkConnected).reschedule == None
    ensures OnError(s, tryNumber, ErrorResponse, networkConnected).display.Some?
  {
  }

  /** The number of attempts among 0 .. n-1 whose network failure creates a pending execution. */
  function ReschedulesBelow(s: Shortcut, error: ErrorKind, networkConnected: bool, n: nat): nat
  {
    if n == 0 then 0
    else ReschedulesBelow(s, error, networkConnected, n - 1)
         + (if OnError(s, n - 1, error, networkConnected).reschedule.Some? then 1 else 0)
  }

  /**
   * However many attempts fail for lack of network, at most MAX_RETRY of them are rescheduled:
   * exactly min(n, MAX_RETRY) when the shortcut waits for the network, none otherwise.
   */
  lemma {:induction false} RetriesStop(s: Shortcut, error: ErrorKind, networkConnected: bool, n: nat)
    ensures ReschedulesBelow(s, error, networkConnected, n)
      == if WaitsForNetwork(s, error, networkConnected) then (if n < MAX_RETRY then n else MAX_RETRY) else 0
  {
    if n > 0 {
      RetriesStop(s, error, networkConnected, n - 1);
    }
  }

  // ---------------------------------------------------------------------------------------------
  // displayOutput.

  /** Kotlin's Char.isWhitespace, restricted to the ASCII whitespace characters. */
  predicate IsWhitespace(c: char)
  {
    c == ' ' || c == '\t' || c == '\n' || c == '\r' || c == '\U{000B}' || c == '\U{000C}'
    || c == '\U{001C}' || c == '\U{001D}' || c == '\U{001E}' || c == '\U{001F}'
  }

  /** Kotlin's CharSequence.isBlank: empty or whitespace only. */
  predicate IsBlank(s: string)
  {
    forall i :: 0 <= i < |s| ==> IsWhitespace(s[i])
  }

  /** A message as shown: the text itself, or the "blank response" resource in place of a blank text. */
  datatype Message = Text(text: string) | BlankResponseMessage

  /** ifBlank with the blank-response resource as the replacement. */
  function IfBlank(s: string): (m: Message)
    ensures m == BlankResponseMessage <==> IsBlank(s)
    ensures m.Text? ==> m.text == s && !IsBlank(m.text)
  {
    if IsBlank(s) then BlankResponseMessage else Text(s)
  }

  datatype Display =
    | ShortToast(message: Message)
    | LongToast(message: Message)
    | ResultDialog(title: ShortcutName, message: Message)
    | ResponseActivity(name: ShortcutName, contentType: Option<string>, text: string, url: Option<string>)
    | NoDisplay

  /**
   * displayOutput on a rendered output text. truncate is the extension function of that name, whose
   * definition is not part of this model. The dialog's HTML formatting is left to the renderer.
   */
  function DisplayOutput(s: Shortcut, output: string, contentType: Option<string>, url: Option<string>,
                         truncate: (string, int) -> string): Display
  {
    match s.feedback
    case FeedbackToastSimple => ShortToast(IfBlank(output))
    case FeedbackToastSimpleErrors => ShortToast(IfBlank(output))
    case FeedbackToast => LongToast(IfBlank(truncate(output, TOAST_MAX_LENGTH)))
    case FeedbackToastErrors => LongToast(IfBlank(truncate(output, TOAST_MAX_LENGTH)))
    case FeedbackDialog => ResultDialog(NameOf(s), IfBlank(output))
    case FeedbackActivity => ResponseActivity(NameOf(s), contentType, output, url)
    case FeedbackNone => NoDisplay
  }

  /** Whether displaying finishes the activity at once: the response activity is started and the activity finishes. */
  predicate FinishesOnDisplay(d: Display)
  {
    d.ResponseActivity?
  }

  /** Whether the activity finishes when the user dismisses what is displayed: the result dialog's dismiss listener. */
  predicate FinishesOnDismiss(d: Display)
  {
    d.ResultDialog?
  }

  /**
   * A toast or dialog never shows a blank text: blank output (after truncation, for the long toasts)
   * becomes the blank-response message; the dialog is titled with the shortcut name and finishes the activity
   * when dismissed; the response activity gets the raw output and the activity finishes; no feedback shows nothing.
   */
  lemma DisplayedMessageNeverBlank(s: Shortcut, output: string, contentType: Option<string>, url: Option<string>,
                                   truncate: (string, int) -> string)
    ensures var d := DisplayOutput(s, output, contentType, url, truncate);
      && (d.ShortToast? || d.LongToast? || d.ResultDialog? ==> d.message.Text? ==> !IsBlank(d.message.text))
      && (s.feedback == FeedbackToastSimple || s.feedback == FeedbackToastSimpleErrors ==> d == ShortToast(IfBlank(output)))
      && (s.feedback == FeedbackToast || s.feedback == FeedbackToastErrors ==>
            d == LongToast(IfBlank(truncate(output, TOAST_MAX_LENGTH))))
      && (s.feedback == FeedbackDialog ==> d == ResultDialog(NameOf(s), IfBlank(output)) && FinishesOnDismiss(d))
      && (s.feedback == FeedbackActivity ==> d == ResponseActivity(NameOf(s), contentType, output, url) && FinishesOnDisplay(d))
      && (FinishesOnDisplay(d) || FinishesOnDismiss(d) <==> s.feedback == FeedbackActivity || s.feedback == FeedbackDialog)
      && (s.feedback == FeedbackNone <==> d == NoDisplay)
  {
  }

  // ---------------------------------------------------------------------------------------------
  // The intent extras written by IntentBuilder and read back by the activity.

  /** The values an intent's extras bundle can hold here. */
  datatype Extra = IntExtra(i: int) | StringExtra(s: string) | StringMapExtra(m: map<string, string>)

  type Extras = map<string, Extra>

  function InitialExtras(shortcutId: string): Extras
  {
    map[EXTRA_SHORTCUT_ID := StringExtra(shortcutId)]
  }

  /** IntentBuilder.tryNumber: the extra is written only for a positive attempt number. */
  function PutTryNumber(extras: Extras, tryNumber: int): (r: Extras)
    ensures tryNumber <= 0 ==> r == extras
    ensures tryNumber > 0 ==> EXTRA_TRY_NUMBER in r && r[EXTRA_TRY_NUMBER] == IntExtra(tryNumber)
    ensures forall k :: k != EXTRA_TRY_NUMBER ==> (k in r <==> k in extras) && (k in r ==> r[k] == extras[k])
  {
    if tryNumber > 0 then extras[EXTRA_TRY_NUMBER := IntExtra(tryNumber)] else extras
  }

  /** Bundle.getInt: the stored int, or 0 when the key is missing or holds another type. */
  function GetInt(extras: Extras, key: string): (i: int)
    ensures key !in extras ==> i == 0
    ensures key in extras && extras[key].IntExtra? ==> i == extras[key].i
    ensures key in extras && !extras[key].IntExtra? ==> i == 0
  {
    if key in extras && extras[key].IntExtra? then extras[key].i else 0
  }

  /** The lazy tryNumber of the activity: 0 when the intent has no extras. */
  function ReadTryNumber(extras: Option<Extras>): (t: int)
    ensures extras == None ==> t == 0
  {
    match extras
    case None => 0
    case Some(bundle) => GetInt(bundle, EXTRA_TRY_NUMBER)
  }

  /** The lazy recursionDepth of the activity: 0 when the intent has no extras. */
  function ReadRecursionDepth(extras: Option<Extras>): (d: int)
    ensures extras == None ==> d == 0
  {
    match extras
    case None => 0
    case Some(bundle) => GetInt(bundle, EXTRA_RECURSION_DEPTH)
  }

  /** Writing an attempt number into extras that do not hold one, then reading it back, yields it if positive and 0 otherwise. */
  lemma TryNumberRoundTrip(extras: Extras, tryNumber: int)
    requires EXTRA_TRY_NUMBER !in extras
    ensures ReadTryNumber(Some(PutTryNumber(extras, tryNumber))) == if tryNumber > 0 then tryNumber else 0
  {
  }

  /** An intent made by IntentBuilder carries no attempt number until tryNumber writes one, so it reads back as written if positive, else 0. */
  lemma TryNumberOfBuiltIntent(shortcutId: string, tryNumber: int)
    ensures ReadTryNumber(Some(PutTryNumber(InitialExtras(shortcutId), tryNumber))) == if tryNumber > 0 then tryNumber else 0
  {
    TryNumberRoundTrip(InitialExtras(shortcutId), tryNumber);
  }

  /** onCreate: a shortcut that cannot be found shows the "not found" toast and finishes; otherwise the attempt is planned. */
  datatype Launch = ShortcutNotFound | Attempt(tryNumber: int, plan: AttemptPlan)

  function OnCreate(found: Option<Shortcut>, extras: Option<Extras>, networkPerformanceRestricted: bool): (l: Launch)
    ensures l.ShortcutNotFound? <==> found.None?
    ensures l.Attempt? ==> l.tryNumber == ReadTryNumber(extras)
    ensures l.Attempt? ==> l.plan == PlanAttempt(found.value, l.tryNumber, networkPerformanceRestricted)
  {
    match found
    case None => ShortcutNotFound
    case Some(s) =>
      var tryNumber := ReadTryNumber(extras);
      Attempt(tryNumber, PlanAttempt(s, tryNumber, networkPerformanceRestricted))
  }

  /**
   * A retry launched through IntentBuilder with a positive attempt number never asks for confirmation
   * and never defers again; a launch whose intent has no extras is a first attempt.
   */
  lemma RetryIntentSkipsConfirmation(s: Shortcut, shortcutId: string, tryNumber: int, restricted: bool)
    requires tryNumber > 0
    ensures var l := OnCreate(Some(s), Some(PutTryNumber(InitialExtras(shortcutId), tryNumber)), restricted);
      && l.Attempt? && l.tryNumber == tryNumber
      && !l.plan.askConfirmation && l.plan.start.Executed?
    ensures var l := OnCreate(Some(s), None, restricted);
      l.Attempt? && l.tryNumber == 0 && (l.plan.askConfirmation <==> s.requireConfirmation)
  {
    TryNumberOfBuiltIntent(shortcutId, tryNumber);
  }

  class IntentBuilder {
    var action: string
    var extras: Extras

    constructor (shortcutId: string)
      ensures action == ACTION_EXECUTE_SHORTCUT && extras == InitialExtras(shortcutId)
      ensures ReadTryNumber(Some(extras)) == 0 && ReadRecursionDepth(Some(extras)) == 0
    {
      action := ACTION_EXECUTE_SHORTCUT;
      extras := InitialExtras(shortcutId);
    }

    method TryNumber(tryNumber: int)
      modifies this`extras
      ensures extras == PutTryNumber(old(extras), tryNumber)
      ensures ReadRecursionDepth(Some(extras)) == old(ReadRecursionDepth(Some(extras)))
      ensures old(ReadTryNumber(Some(extras))) == 0 ==>
        ReadTryNumber(Some(extras)) == if tryNumber > 0 then tryNumber else 0
    {
      if tryNumber > 0 {
        extras := extras[EXTRA_TRY_NUMBER := IntExtra(tryNumber)];
      }
    }

    method VariableValues(variableValues: map<string, string>)
      modifies this`extras
      ensures extras == old(extras)[EXTRA_VARIABLE_VALUES := StringMapExtra(variableValues)]
      ensures ReadTryNumber(Some(extras)) == old(ReadTryNumber(Some(extras)))
      ensures ReadRecursionDepth(Some(extras)) == old(ReadRecursionDepth(Some(extras)))
    {
      extras := extras[EXTRA_VARIABLE_VALUES := StringMapExtra(variableValues)];
    }

    /** Unlike the attempt number, the recursion depth is written unconditionally, so it always reads back. */
    method RecursionDepth(recursionDepth: int)
      modifies this`extras
      ensures extras == old(extras)[EXTRA_RECURSION_DEPTH := IntExtra(recursionDepth)]
      ensures ReadRecursionDepth(Some(extras)) == recursionDepth
      ensures ReadTryNumber(Some(extras)) == old(ReadTryNumber(Some(extras)))
    {
      extras := extras[EXTRA_RECURSION_DEPTH := IntExtra(recursionDepth)];
    }
  }

  // ---------------------------------------------------------------------------------------------
  // The one-shot loading layout.

  class ExecuteActivity {
    var layoutLoaded: bool
    /** How many times the loading layout has been set as content view. */
    ghost var loadingLayoutsSet: nat

    ghost predicate Valid()
      reads this
    {
      loadingLayoutsSet == if layoutLoaded then 1 else 0
    }

    constructor ()
      ensures Valid() && !layoutLoaded && loadingLayoutsSet == 0
    {
      layoutLoaded := false;
      loadingLayoutsSet := 0;
    }

    /** showProgressRunnable: loads the loading layout the first time only; later runs change nothing. */
    method ShowProgressRunnable()
      requires Valid()
      modifies this
      ensures Valid() && layoutLoaded
      ensures loadingLayoutsSet == 1
      ensures old(layoutLoaded) ==> loadingLayoutsSet == old(loadingLayoutsSet)
    {
      if !layoutLoaded {
        layoutLoaded := true;
        loadingLayoutsSet := loadingLayoutsSet + 1;
      }
    }
  }
}

=== FILE: FileTypeUtil.dfy ===
/** MIME type constants and the image test of FileTypeUtil. */
module FileTypeUtil {
  import opened Optional

  const TYPE_XML := "text/xml"
  const TYPE_JSON := "application/json"
  const TYPE_HTML := "text/html"
  const TYPE_YAML := "text/yaml"
  const TYPE_YAML_ALT := "application/x-yaml"

  /** The prefix every image MIME type starts with. */
  const IMAGE_PREFIX := "image/"

  /** Kotlin's case-sensitive String.startsWith, comparing character by character. */
  function StartsWith(s: string, prefix: string): bool
    decreases prefix
  {
    if prefix == [] then true
    else if s == [] then false
    else s[0] == prefix[0] && StartsWith(s[1..], prefix[1..])
  }

  /** The character-by-character test agrees with Dafny's prefix relation. */
  lemma {:induction false} StartsWithIsPrefix(s: string, prefix: string)
    ensures StartsWith(s, prefix) <==> prefix <= s
    decreases prefix
  {
    if prefix != [] && s != [] {
      StartsWithIsPrefix(s[1..], prefix[1..]);
      assert prefix <= s <==> s[0] == prefix[0] && prefix[1..] <= s[1..];
    }
  }

  /** isImage: a missing type is not an image; otherwise the type must start with "image/". */
  function IsImage(mimeType: Option<string>): (r: bool)
    ensures r <==> mimeType.Some? && IMAGE_PREFIX <= mimeType.value
  {
    match mimeType
    case None => false
    case Some(t) => StartsWithIsPrefix(t, IMAGE_PREFIX); StartsWith(t, IMAGE_PREFIX)
  }

  /** Every subtype of "image/", the empty one included, is an image. */
  lemma ImageWithAnySubtype(subtype: string)
    ensures IsImage(Some(IMAGE_PREFIX + subtype))
  {
    assert IMAGE_PREFIX <= IMAGE_PREFIX + subtype;
  }

  /** The test is exact and case-sensitive, and none of the text MIME constants is an image. */
  lemma NonImageTypes()
    ensures !IsImage(None)
    ensures !IsImage(Some("image")) && !IsImage(Some("Image/png"))
    ensures !IsImage(Some(TYPE_XML)) && !IsImage(Some(TYPE_JSON)) && !IsImage(Some(TYPE_HTML))
    ensures !IsImage(Some(TYPE_YAML)) && !IsImage(Some(TYPE_YAML_ALT))
  {
  }
}

=== FILE: Optional.dfy ===
/** Kotlin's nullable types and Java's nullable references, as a value. */
module Optional {

  datatype Option<+T> = None | Some(value: T)
}

=== FILE: PostParameter.dfy ===
/** The form parameter of a shortcut: a fixed id with a mutable key and value. */
module Shortcuts {
  import opened Optional

  /** Java's 64-bit signed long. */
  newtype Long = x: int | -0x8000_0000_0000_0000 <= x < 0x8000_0000_0000_0000

  /** A Java String reference, which may be null. */
  type JavaString = Option<string>

  class PostParameter {
    /** final in the source: fixed at construction. */
    const id: Long
    var key: JavaString
    var value: JavaString

    constructor (id: Long, key: JavaString, value: JavaString)
      ensures GetID() == id && GetKey() == key && GetValue() == value
    {
      this.id := id;
      this.key := key;
      this.value := value;
    }

    function GetID(): Long
    {
      id
    }

    function GetKey(): JavaString
      reads this
    {
      key
    }

    function GetValue(): JavaString
      reads this
    {
      value
    }

    /** Overwrites the key only; the new key does not depend on the old one, so the last write wins. */
    method SetKey(key: JavaString)
      modifies this`key
      ensures GetKey() == key
      ensures GetValue() == old(GetValue())
    {
      this.key := key;
    }

    /** Overwrites the value only; the new value does not depend on the old one, so the last write wins. */
    method SetValue(value: JavaString)
      modifies this`value
      ensures GetValue() == value
      ensures GetKey() == old(GetKey())
    {
      this.value := value;
    }
  }

  /** Two successive writes to each field: only the last one is visible (the id is a `const`, so no method can move it). */
  method LastWriteWins(p: PostParameter, k1: JavaString, k2: JavaString, v1: JavaString, v2: JavaString)
    modifies p
    ensures p.GetKey() == k2 && p.GetValue() == v2
  {
    p.SetKey(k1);
    p.SetKey(k2);
    p.SetValue(v1);
    p.SetValue(v2);
  }
}
